=== FILE: README.md ===
# multisocket session and channel multiplexing, modelled in Dafny

multisocket carries many logical channels over one socket.io link between
a client and a server. It also keeps a client's session alive across link
drops for a 30-second grace period.

This project models the core of `index.js` as pure transition functions over
immutable state:

- **Wire names.** A channel numbered `n` sends logical event `key` under the
  wire name `key + "_" + n`.
- **Channels.** Each channel keeps a table of the handlers it registered on
  its parent's link (`Connection.on` / `off`).
- **Lines.** A line is the server-side session. It holds an authentication
  flag, a table of channels by number, the link it is bound to, and a
  disconnect grace timer.
- **Registry.** This is the server-side `MultiSocket`. It indexes lines by
  link id (`ws`) and by client session id (`cn`), and it holds the shared
  factory table `connectionFunc`. It handles six events:
  - link open
  - authentication
  - channel open
  - reconnect challenge
  - link disconnect
  - grace-timer expiry
- **Client.** The client-side `MultiSocket` numbers channels 0, 1, 2, …,
  sends the open message `{name, number, id}`, and arms and disarms its own
  grace timer.

## How the source is represented

- **Object references.** JavaScript shares line and channel objects by
  reference. Lines therefore live in a map `lines: LineRef -> Line`, and
  channel objects in `conns: ChanRef -> Conn(parent, channel)`. The indexes
  `ws`, `cn` and the timer table hold references. A channel object that a
  later open with the same number replaces stays in `conns`, so user code
  can still reach it, as in the source.
- **Listeners.** The listeners on a link form a multiset of
  `(wire name, handler)` pairs. `ws.on` adds one instance without
  deduplicating, and `removeListener` removes one instance if there is one.
  Handlers are JavaScript function identities (`nat`).
- **Events.** Incoming messages, timer expiries and the calls that user code
  makes on channel objects are all events. `Registry.Step` and the `Client`
  functions return the new state plus a sequence of effects:
  - a message emitted
  - a factory called
  - a handler called
  - a `TypeError` thrown
- **Event keys.** The handler table of a channel is keyed by `EventKey`,
  meaning any string except `"connection"`. `on('connection', f)` writes
  the factory table and never the channel's handler table.
- **Channel order.** `Object.keys` lists integer-like keys in ascending
  order, so `Line.disconnect` visits channels in ascending number order
  (`PropertyOrder.SortedKeys`).
- **Reachable states.** `Registry.Valid` states what every reachable
  server state keeps, and `RegistryProperties.StepKeepsValid` proves that
  every event preserves it. Under it the pairs re-registered on reconnect
  and removed on teardown are pairwise distinct
  (`RegistryProperties.WireNamesDistinctWithinLine`). Sets of pairs
  therefore count each registration exactly once.

The model reproduces the following behaviours of the source as written,
although a reader might expect otherwise:

- **Unknown session on a reconnect challenge.** The server sends no
  `challenge_failed` reply. It does nothing.
- **Duplicate channel numbers.** Nothing rejects them. The last open wins,
  and the replaced channel's listeners stay on the link but are not
  re-registered after a reconnect.
- **Grace-timer expiry.** The line stays in `ws` and `cn`, so a later
  challenge for that session still moves the emptied line
  (`RegistryProperties.TornDownLineStillRebinds`).
- **Missing factory.** When `connectionFunc[name]` is neither an own nor an
  inherited function, `Line.connect` throws after it has stored the
  channel. The session id is
  then not indexed.
- **Client grace timer.** Only the most recently created channel hears about
  it.

## Model

| member | source | states |
|---|---|---|
| Wire.Decimal | index.js:203 | a channel number is rendered as canonical decimal (no leading zero unless the number is 0) and the rendering never contains the separator `_` |
| Wire.ParseDecimalOfDecimal | index.js:203 | reading back a rendered channel number gives the number |
| Wire.DecimalOfParseDecimal | index.js:203 | every canonical digit string is the rendering of the number it denotes |
| Wire.WireName | index.js:200-204 | the wire name starts with the key, followed by the separator |
| Wire.WireNameRoundTrip | index.js:200-204 | the (key, number) pair is recovered from its wire name by splitting at the last separator |
| Wire.ParseWireNameSound | index.js:200-204 | a string that splits into (key, number) is exactly that pair's wire name |
| Wire.WireNameInjective | index.js:200-204 | two wire names are equal if and only if their keys and their numbers are equal |
| Channels.NewChannel | index.js:193-198 | a new channel has the given name and number and records no handler |
| Channels.On | index.js:210-217 | `'connection'` sets only the factory for the channel's name; any other key records the handler under that key, leaves the other keys alone and adds exactly one listener instance for the channel's wire name |
| Channels.Off | index.js:219-226 | `'connection'` deletes only the factory for the channel's name; any other key drops that key from the table and removes at most one instance of the matching listener, touching no other listener |
| Channels.OnDelivers | index.js:210-217 | after `on(key, f)`, a message on the channel's wire name for `key` reaches `f` |
| Channels.OffUndoesOn | index.js:210-226 | `off` after `on` restores the channel table, the link's listeners and the factory table, for a key not recorded before |
| Channels.OnInvisibleToOtherChannels | index.js:200-217 | a registration by one channel does not change who receives a message addressed to any channel with a different number |
| PropertyOrder.SortedKeys | index.js:182 | the channel numbers are listed once each in strictly ascending order, and no number is missing |
| PropertyOrder.IncreasingWithinBound | index.js:182-185 | a strictly increasing listing of channel numbers is no longer than the channel table |
| Lines.NewLine | index.js:138-144 | a new line is authenticated exactly when no authentication function is configured, and starts with no channels |
| Lines.Auth | index.js:146-156 | with no authentication function, nothing happens; otherwise the result is sent back on the line's link whether or not there is an error, and the line becomes authenticated only on a reply without error |
| Lines.Connect | index.js:158-163 | the requested number now maps to a fresh channel with no handlers, replacing any earlier one while other numbers are unaffected; the factory is called once with that channel if it exists, and otherwise the call throws |
| Lines.Reconnect | index.js:165-177 | the line moves to the new link; every recorded handler of every channel gains exactly one registration there under its wire name; channel tables, the factory table and other links are unchanged |
| Lines.Firing | index.js:182-185 | keeps, in order, exactly those channel numbers whose channel has a `'disconnect'` handler |
| Lines.FiringOrder | index.js:182-185 | lists each channel with a `'disconnect'` handler exactly once, in ascending number order, and no other channel |
| Lines.Disconnect | index.js:179-191 | each channel's `'disconnect'` handler, where present, is called exactly once in ascending channel order; each recorded handler is removed once from the current link; every channel's table and the line's channel table end empty |
| Lines.Cleared | index.js:186-189 | every channel of the line ends with an empty table and keeps its parent, name and number; other channel objects are untouched |
| Lines.RemoveEach | index.js:186-188 | one `removeListener` per recorded pair: each such listener loses at most one instance, others are untouched |
| Registry.Init | index.js:45-48 | the server branch of the constructor starts with an empty factory table, empty `ws` and `cn` indexes, no lines, channel objects, link listeners or timers, all counters at zero, and the given authentication setting |
| Registry.OnLinkOpened | index.js:50-53 | a new link indexes a new line, made by `Lines.NewLine` with the server's own authentication setting, so it is authenticated exactly when no authentication function is configured; the line counter goes up by one and nothing else changes |
| Registry.Relink | index.js:68-69 | the new link indexes the line, the stale link indexes nothing, and every other link keeps its line |
| Registry.Cancel | index.js:65 | the cancelled timer is no longer pending and every other pending timer is kept |
| Registry.Rebind | index.js:59-70 | the line is bound to the new link, its grace timer is cancelled, and every recorded handler gains one registration on the new link; the session index and the channel objects are unchanged |
| Registry.OnChallenge | index.js:55-72 | the line is rebound only when the session is known and bound to a different link; otherwise nothing changes and no reply is sent |
| Registry.OnAuth | index.js:75-78 | the authentication function's reply reaches the line bound to the link and only its authentication flag can change; on a link with no line the handler throws |
| Registry.OnOpen | index.js:81-90 | before authentication the message changes nothing and has no effect; after it, the fresh channel replaces the one under that number, the session id indexes the line, and the factory is called exactly once (or the call throws and the session id is not indexed); the other lines, links, timers and counters are unchanged |
| Registry.OnLinkClosed | index.js:93-102 | the line bound to the link arms a fresh 30-second grace timer that becomes its recorded timer; a link with no line changes nothing |
| Registry.OnTimerFired | index.js:97-100 | a pending timer tears its line down as `Line.disconnect` does and leaves both indexes as they were; a cancelled timer does nothing |
| Registry.OnFactoryOn | index.js:210-217 | on a server-level channel, `'connection'` sets the factory for the name; any other key throws and changes nothing |
| Registry.OnFactoryOff | index.js:219-226 | on a server-level channel, `'connection'` deletes the factory for the name; any other key throws and changes nothing |
| Registry.OnChannelOn | index.js:210-217 | the result is exactly `Channels.On` applied to the channel, the listeners of the parent line's current link and the factory table, with every other channel, link, line and index unchanged; for a key other than `'connection'` the table maps the key to the handler and the handler then receives the channel's messages for that key on that link |
| Registry.OnChannelOff | index.js:219-226 | the result is exactly `Channels.Off` applied in the same place, with every other channel, link, line and index unchanged; the key leaves the channel's table, the other keys keep their handlers, and exactly one instance of the matching listener, if present, leaves the parent line's current link; `'connection'` only deletes the factory |
| Registry.OnChannelEmit | index.js:206-208 | the message goes out, carrying the given data unchanged, on the parent line's current link under a wire name that splits back into the key and the channel's number |
| RegistryProperties.OpenKeepsValid | index.js:81-90 | channel open keeps the registry invariant: each stored channel is a live object whose parent is its line and whose number is its slot |
| RegistryProperties.StepKeepsValid | index.js:45-104 | every server event, dispatched by `Registry.Step` to its handler as the `ws.on` registrations at index.js:50-104 do, keeps the registry invariant |
| RegistryProperties.WireNamesDistinctWithinLine | index.js:200-204 | within one line, different (key, channel) pairs never share a wire name |
| RegistryProperties.RebindRestoresDelivery | index.js:55-72 | after a reconnect challenge, every handler a channel recorded receives that channel's messages on the new link, with exactly one more registration, and the channel table is unchanged |
| RegistryProperties.ChallengeIdempotent | index.js:56-58 | a repeated challenge for the same session on the same link changes nothing and adds no registration |
| RegistryProperties.CancelledTimerIsInert | index.js:65 | the grace timer a rebind cancels never tears the line down |
| RegistryProperties.AuthGatesOpen | index.js:81-90 | an open before authentication is dropped; after an accepted authentication the same open calls the factory exactly once |
| RegistryProperties.TornDownLineStillRebinds | index.js:55-72 | after teardown both indexes still hold the line, and a later challenge moves the emptied line without registering anything |
| RegistryProperties.ChatScenario | index.js:81-90 | session `ab12cd34` opening `chat` as 0 with no authentication function calls the `chat` factory at once, and the channel's handlers use the `_0` suffix |
| Client.New | index.js:106-109 | a new client has the given session id, no channels, counter 0, no listeners, no pending or recorded grace timer, and timer ids starting at 0 |
| Client.Io | index.js:228-245 | the channel takes the current counter value, the counter goes up by one, and the open message carries that number and the session id |
| Client.OpenAll | index.js:235-242 | successive channels get consecutive, hence pairwise distinct, numbers starting at the counter, each announced with its own number and the session id; the channels made before are kept, and nothing but the counter and the channel list changes |
| Client.OnChannelOn | index.js:210-217 | on the client, `'connection'` throws and changes nothing; any other key gives exactly `Channels.On` on that channel and the socket's listeners, with every other channel and field unchanged: the key maps to the handler, other keys keep theirs, and the handler receives the channel's messages for that key |
| Client.OnChannelOff | index.js:219-226 | on the client, `'connection'` throws and changes nothing; any other key gives exactly `Channels.Off` on that channel and the socket's listeners: the key leaves the table, other keys keep their handlers, one instance of the matching listener (if present) leaves the socket, and nothing else changes |
| Client.OnChannelEmit | index.js:206-208 | the message goes out under a wire name that splits back into the key and the channel's number |
| Client.OnLinkClosed | index.js:110-118 | a fresh 30-second grace timer is armed and recorded, earlier timers are left pending, and nothing else (session id, channels, counter, listeners) changes |
| Client.OnReconnected | index.js:119-124 | the recorded grace timer is cancelled, every other pending timer stays, the session id is sent as a reconnect challenge, and nothing else changes |
| Client.EventsKeepSession | index.js:106-124 | every client transition keeps the session id that the opens and the reconnect challenge carry, and keeps channel numbering and timer freshness |
| Client.OnTimerFired | index.js:112-117 | a pending timer calls at most one handler: the most recent channel's `'disconnect'` handler, if it has one; with no channel it throws |
| Client.ReconnectDisarmsTimer | index.js:110-124 | a reconnect after a disconnect means the grace timer armed by that disconnect never fires |
| SessionProperties.OpenPairsChannels | index.js:81-90 | the client's open message gives the server a channel with the same name and number; a server handler for a key then receives what the client emits under that key |

## Left out

- **socket.io transport, namespaces and options** (index.js:49-50, 106):
  these belong to an external library. Links are only ids plus listener
  multisets. Registrations and messages on links are abstract, with no
  framing, no delivery and no ordering.
- **The order of handlers on one link.** Node's `removeListener` removes
  the most recently added instance. A multiset does not tell instances
  apart, and nothing here depends on which instance goes.
- **Real time** (index.js:39, 97-100, 112-117): `setTimeout` and
  `clearTimeout` become timer ids with explicit expiry events. Arming a
  timer is the effect `TimerArmed(timer, delayMs)`, with the delay
  `Wire.GRACE_DELAY_MS` of 30 000 ms; nothing models the passing of time.
- **The authentication callback** (index.js:149): it is external and
  asynchronous. Its reply `(err, result)` is an input, delivered together
  with the authentication message. A callback that never answers or answers
  twice is not modelled.
- **JSON encoding** (index.js:84, 242): the open message is a record.
  Malformed JSON is not modelled, nor are channel numbers that are not
  naturals. Numbers of `2^32 - 1` or more, which `Object.keys` orders by
  insertion and not numerically, are not modelled either. Neither are
  numbers of `10^21` or more, which JavaScript renders in exponent form.
- **The random session id** (index.js:109): it is an opaque given string.
- **Logging, the client `authenticate` wrapper and the module export**
  (index.js:130-135, 247-251): these are glue outside the core.
- **Re-entrant callbacks.** Factories and handlers that run during a
  transition are recorded as effects. Anything they do to the model
  arrives as later events.
- **`emit` on a server-level `multi.io(name)` channel**: this always
  throws in the source, because the registry map has no `emit`. It is not
  modelled.
- Lines.Connect: JavaScript objects inherit from `Object.prototype`, and
  Dafny maps do not. A channel name such as `toString` or `constructor`
  finds an inherited function in `connectionFunc`, which the source calls
  without throwing. The model treats every name without an own factory as
  missing and records the `TypeError`. Channel names that are inherited
  property names, and `__proto__`, are not modelled.
- Registry.OnOpen: for the same reason, an open message whose name is an
  inherited property name calls the inherited function in the source, and
  the model reports the missing factory instead. A session id of
  `__proto__` replaces the prototype of `cn` in the source rather than
  adding a key; the model adds an ordinary key.
- Registry.OnChallenge: a session id that is an inherited property name
  (`constructor`, `toString`, `__proto__`) finds a truthy non-line value in
  `cn`, and the source throws a `TypeError` on `line.ws.id`. The model
  finds no line and changes nothing.
- Channels.On: a key of `__proto__` replaces the prototype of `events` in
  the source instead of adding a key, so `Object.keys` never lists it and
  reconnects and teardown skip it. The model records it as an ordinary
  key. The same holds for `'__proto__'` as a channel name in the factory
  table.
- **Clearing `self.ws[os.id]`**: the source writes `undefined` to that key.
  The model deletes the key instead, which is the same for every lookup in
  the source. Nothing enumerates `ws`.

=== FILE: channels.dfy ===
/**
 A channel (`Connection` in index.js:193-226): a named logical
 sub-connection with a number, and the table of handlers it has registered.

 A channel never owns the link it talks on: `on` and `off` act on the
 listener multiset of its parent's current link and on the shared factory
 table, so they take both as arguments and return the updated versions.
 */
module Channels {
  import opened Wire

  /** Identity of one physical link (`ws.id`). */
  type LinkId = string

  /** Identity of one JavaScript function object; handlers are compared by identity. */
  type Handler = nat

  /** Keys that can appear in a channel's `events` table: `on('connection', f)`
      writes the factory table instead (index.js:211-215), so never this key. */
  type EventKey = k: string | k != CMD_CONNECTION witness CMD_DISCONNECT

  /** One `ws.on(event, handler)` registration on a link. */
  datatype Listener = Listener(event: string, handler: Handler)

  /** The listener registrations of one link. `ws.on` appends without
      deduplicating and `removeListener` removes one instance, so a multiset. */
  type Listeners = multiset<Listener>

  datatype Channel = Channel(name: string, number: nat, events: map<EventKey, Handler>)

  /** The channel-open message `{name, number, id}` (index.js:237-241). */
  datatype OpenRequest = OpenRequest(name: string, number: nat, id: string)

  /** What travels on the link as a message body. */
  datatype Payload =
    | Data(text: string)
    | Open(request: OpenRequest)
    | SessionToken(id: string)

  /** Observable effects of one transition, in the order they happen. */
  datatype Effect =
    | Emit(link: LinkId, event: string, payload: Payload)   // server `ws.emit` on a link
    | Send(event: string, payload: Payload)                 // client `ws.emit` on its socket
    | FactoryCalled(factory: Handler, channel: nat)         // `connectionFunc[name](conn)`
    | HandlerCalled(handler: Handler)                       // a recorded handler invoked
    | TimerArmed(timer: nat, delayMs: nat)                  // `setTimeout(callback, delayMs)`
    | TypeError(site: string)                               // the handler threw

  /** The result of `on` / `off`: the channel, the parent link's listeners and
      the factory table, each possibly changed. */
  datatype Registration = Registration(channel: Channel, listeners: Listeners, factories: map<string, Handler>)

  /** A freshly constructed channel records no handlers (index.js:193-198). */
  function NewChannel(name: string, number: nat): (c: Channel)
    ensures c.name == name && c.number == number
    ensures forall k: EventKey :: k !in c.events
  {
    Channel(name, number, map[])
  }

  /** The handlers a message arriving on `event` is delivered to. */
  function Receivers(ls: Listeners, event: string): set<Handler> {
    set l | l in ls && l.event == event :: l.handler
  }

  /** `Connection.on` (index.js:210-217). */
  function On(ch: Channel, ls: Listeners, fs: map<string, Handler>, key: string, f: Handler): (r: Registration)
    ensures key == CMD_CONNECTION ==>
      && r.channel == ch && r.listeners == ls
      && r.factories.Keys == fs.Keys + {ch.name} && r.factories[ch.name] == f
      && forall name :: name in fs && name != ch.name ==> r.factories[name] == fs[name]
    ensures key != CMD_CONNECTION ==>
      && r.factories == fs
      && r.channel.name == ch.name && r.channel.number == ch.number
      && r.channel.events.Keys == ch.events.Keys + {key}
      && r.channel.events[key] == f
      && (forall k :: k in ch.events && k != key ==> r.channel.events[k] == ch.events[k])
      && r.listeners[Listener(WireName(key, ch.number), f)] == ls[Listener(WireName(key, ch.number), f)] + 1
      && (forall l :: l != Listener(WireName(key, ch.number), f) ==> r.listeners[l] == ls[l])
  {
    if key == CMD_CONNECTION then
      Registration(ch, ls, fs[ch.name := f])
    else
      Registration(ch.(events := ch.events[key := f]),
                   ls + multiset{Listener(WireName(key, ch.number), f)},
                   fs)
  }

  /** `Connection.off` (index.js:219-226). `removeListener` drops one
      instance of `(eventName(key), f)` if there is one; the recorded entry
      for `key` goes whatever handler it held. */
  function Off(ch: Channel, ls: Listeners, fs: map<string, Handler>, key: string, f: Handler): (r: Registration)
    ensures key == CMD_CONNECTION ==>
      && r.channel == ch && r.listeners == ls
      && r.factories.Keys == fs.Keys - {ch.name}
      && forall name :: name in r.factories ==> r.factories[name] == fs[name]
    ensures key != CMD_CONNECTION ==>
      && r.factories == fs
      && r.channel.name == ch.name && r.channel.number == ch.number
      && r.channel.events.Keys == ch.events.Keys - {key}
      && (forall k :: k in r.channel.events ==> r.channel.events[k] == ch.events[k])
      && (ls[Listener(WireName(key, ch.number), f)] > 0 ==>
            r.listeners[Listener(WireName(key, ch.number), f)] == ls[Listener(WireName(key, ch.number), f)] - 1)
      && r.listeners[Listener(WireName(key, ch.number), f)] <= ls[Listener(WireName(key, ch.number), f)]
      && (forall l :: l != Listener(WireName(key, ch.number), f) ==> r.listeners[l] == ls[l])
  {
    if key == CMD_CONNECTION then
      Registration(ch, ls, fs - {ch.name})
    else
      Registration(ch.(events := ch.events - {key}),
                   ls - multiset{Listener(WireName(key, ch.number), f)},
                   fs)
  }

  /** After `on(key, f)` a message on the channel's wire name for `key`
      reaches `f`, and after a matching `off` the registration is gone. */
  lemma OnDelivers(ch: Channel, ls: Listeners, fs: map<string, Handler>, key: string, f: Handler)
    ensures key != CMD_CONNECTION ==> f in Receivers(On(ch, ls, fs, key, f).listeners, WireName(key, ch.number))
  {
    if key != CMD_CONNECTION {
      var l := Listener(WireName(key, ch.number), f);
      assert l in On(ch, ls, fs, key, f).listeners;
    }
  }

  /** `off` undoes `on` for a key the channel had not recorded before. */
  lemma OffUndoesOn(ch: Channel, ls: Listeners, fs: map<string, Handler>, key: string, f: Handler)
    requires key != CMD_CONNECTION ==> key !in ch.events
    requires key == CMD_CONNECTION ==> ch.name !in fs
    ensures
      var r := On(ch, ls, fs, key, f);
      Off(r.channel, r.listeners, r.factories, key, f) == Registration(ch, ls, fs)
  {
    var r := On(ch, ls, fs, key, f);
    var back := Off(r.channel, r.listeners, r.factories, key, f);
    if key == CMD_CONNECTION {
      assert back.factories == fs;
    } else {
      assert back.channel.events == ch.events;
      assert back.listeners == ls;
    }
  }

  /** Channels are isolated: a registration made by one channel does not
      change who receives any message addressed to a channel with another number. */
  lemma OnInvisibleToOtherChannels(ch: Channel, ls: Listeners, fs: map<string, Handler>, key: string, f: Handler,
                                   otherKey: string, otherNumber: nat)
    requires otherNumber != ch.number
    ensures Receivers(On(ch, ls, fs, key, f).listeners, WireName(otherKey, otherNumber))
         == Receivers(ls, WireName(otherKey, otherNumber))
  {
    WireNameInjective(key, ch.number, otherKey, otherNumber);
    var r := On(ch, ls, fs, key, f).listeners;
    var w := WireName(otherKey, otherNumber);
    forall h | h in Receivers(r, w) ensures h in Receivers(ls, w) {
      var l :| l in r && l.event == w && l.handler == h;
      assert l in ls;
    }
    forall h | h in Receivers(ls, w) ensures h in Receivers(r, w) {
      var l :| l in ls && l.event == w && l.handler == h;
      assert l in r;
    }
  }
}

=== FILE: client.dfy ===
/**
 The client side of `MultiSocket` (index.js:105-125, 206-245): one socket,
 a session id chosen once, and a counter that hands out channel numbers.
 The socket's lifecycle messages and the client's grace timer are events.
 */
module Client {
  import opened Wrappers
  import opened Wire
  import opened Channels
  import opened Lines

  datatype Client = Client(
    id: string,                       // the session id, fixed at construction
    number: nat,                      // the number the next channel gets
    chans: seq<Channel>,              // every channel object, in creation order
    listeners: Listeners,             // registrations on the client's socket
    timers: set<TimerId>,             // pending grace timers
    disconnectTimer: Option<TimerId>, // the last timer armed
    nextTimer: TimerId)

  /** What `multi.io(name)` produces: the updated client, the new channel's
      index in `chans`, and the open message it sent. */
  datatype Created = Created(client: Client, channel: nat, effects: seq<Effect>)

  datatype Outcome = Outcome(client: Client, effects: seq<Effect>)

  /** Channel `i` carries number `i`, the counter is the number of channels
      made so far, and timer ids are fresh below `nextTimer`. */
  ghost predicate Valid(c: Client) {
    && |c.chans| == c.number
    && (forall i :: 0 <= i < |c.chans| ==> c.chans[i].number == i)
    && (forall t :: t in c.timers ==> t < c.nextTimer)
  }

  /** The client constructor (index.js:106-109); the random session id is given. */
  function New(id: string): (c: Client)
    ensures c.number == 0 && c.chans == [] && c.id == id
    ensures c.listeners == multiset{} && c.timers == {} && c.disconnectTimer == None && c.nextTimer == 0
    ensures Valid(c)
  {
    Client(id, 0, [], multiset{}, {}, None, 0)
  }

  /** `multi.io(name)` on the client (index.js:228-245): the channel takes the
      current counter value, which then goes up by one; the channel becomes
      the current one and an open message `{name, number, id}` is sent. */
  function Io(c: Client, name: string): (r: Created)
    ensures r.channel == |c.chans| && r.client.chans == c.chans + [NewChannel(name, c.number)]
    ensures r.client.number == c.number + 1
    ensures r.effects == [Send(CMD_CONNECTION, Open(OpenRequest(name, c.number, c.id)))]
    ensures r.client.id == c.id && r.client.listeners == c.listeners && r.client.timers == c.timers
    ensures r.client.disconnectTimer == c.disconnectTimer && r.client.nextTimer == c.nextTimer
    ensures Valid(c) ==> Valid(r.client)
  {
    var ch := NewChannel(name, c.number);
    Created(c.(chans := c.chans + [ch], number := c.number + 1), |c.chans|,
            [Send(CMD_CONNECTION, Open(OpenRequest(name, ch.number, c.id)))])
  }

  /** `multi.io(name)` for each name in turn: the channels get consecutive
      numbers starting at the counter, so they are pairwise distinct, and
      every open message carries its channel's number and the session id. */
  method OpenAll(c: Client, names: seq<string>) returns (r: Client, numbers: seq<nat>, sent: seq<Effect>)
    requires Valid(c)
    ensures Valid(r) && r.id == c.id
    ensures r.number == c.number + |names|
    ensures |numbers| == |names| && |sent| == |names|
    ensures forall i :: 0 <= i < |names| ==> numbers[i] == c.number + i
    ensures forall i, j :: 0 <= i < j < |numbers| ==> numbers[i] < numbers[j]
    ensures forall i :: 0 <= i < |names| ==> sent[i] == Send(CMD_CONNECTION, Open(OpenRequest(names[i], numbers[i], c.id)))
    ensures forall i :: 0 <= i < |names| ==> r.chans[numbers[i]] == NewChannel(names[i], numbers[i])
    ensures r.chans[..c.number] == c.chans
    ensures r == c.(number := r.number, chans := r.chans)
  {
    r := c;
    numbers := [];
    sent := [];
    var k := 0;
    while k < |names|
      invariant 0 <= k <= |names|
      invariant Valid(r) && r.id == c.id
      invariant r.number == c.number + k
      invariant |numbers| == k && |sent| == k
      invariant r.chans[..c.number] == c.chans
      invariant r == c.(number := r.number, chans := r.chans)
      invariant forall i :: 0 <= i < k ==> numbers[i] == c.number + i
      invariant forall i :: 0 <= i < k ==> sent[i] == Send(CMD_CONNECTION, Open(OpenRequest(names[i], numbers[i], c.id)))
      invariant forall i :: 0 <= i < k ==> r.chans[numbers[i]] == NewChannel(names[i], numbers[i])
    {
      var made := Io(r, names[k]);
      numbers := numbers + [r.number];
      sent := sent + made.effects;
      r := made.client;
      k := k + 1;
    }
  }

  /** `conn.on(key, f)` on a client channel (index.js:210-217). The client
      has no factory table, so `'connection'` throws; any other key is
      recorded and registered on the socket. */
  function OnChannelOn(c: Client, i: nat, key: string, f: Handler): (r: Outcome)
    ensures i >= |c.chans| ==> r == Outcome(c, [])
    ensures i < |c.chans| && key == CMD_CONNECTION ==> r.client == c && |r.effects| == 1 && r.effects[0].TypeError?
    ensures i < |c.chans| && key != CMD_CONNECTION ==>
      var res := On(c.chans[i], c.listeners, map[], key, f);
      && r.effects == []
      && r.client == c.(chans := c.chans[i := res.channel], listeners := res.listeners)
      && r.client.chans[i].name == c.chans[i].name && r.client.chans[i].number == c.chans[i].number
      && key in r.client.chans[i].events && r.client.chans[i].events[key] == f
      && (forall k :: k in c.chans[i].events && k != key ==> k in r.client.chans[i].events && r.client.chans[i].events[k] == c.chans[i].events[k])
      && f in Receivers(r.client.listeners, WireName(key, c.chans[i].number))
      && (forall x :: x != Listener(WireName(key, c.chans[i].number), f) ==> r.client.listeners[x] == c.listeners[x])
      && (forall j :: 0 <= j < |c.chans| && j != i ==> r.client.chans[j] == c.chans[j])
  {
    if i >= |c.chans| then Outcome(c, [])
    else if key == CMD_CONNECTION then Outcome(c, [TypeError("connectionFunc is undefined")])
    else
      var res := On(c.chans[i], c.listeners, map[], key, f);
      OnDelivers(c.chans[i], c.listeners, map[], key, f);
      Outcome(c.(chans := c.chans[i := res.channel], listeners := res.listeners), [])
  }

  /** `conn.off(key, f)` on a client channel (index.js:219-226). */
  function OnChannelOff(c: Client, i: nat, key: string, f: Handler): (r: Outcome)
    ensures i >= |c.chans| ==> r == Outcome(c, [])
    ensures i < |c.chans| && key == CMD_CONNECTION ==> r.client == c && |r.effects| == 1 && r.effects[0].TypeError?
    ensures i < |c.chans| && key != CMD_CONNECTION ==>
      var res := Off(c.chans[i], c.listeners, map[], key, f);
      var w := Listener(WireName(key, c.chans[i].number), f);
      && r.effects == []
      && r.client == c.(chans := c.chans[i := res.channel], listeners := res.listeners)
      && r.client.chans[i].name == c.chans[i].name && r.client.chans[i].number == c.chans[i].number
      && key !in r.client.chans[i].events
      && (forall k :: k in r.client.chans[i].events ==> r.client.chans[i].events[k] == c.chans[i].events[k])
      && (c.listeners[w] > 0 ==> r.client.listeners[w] == c.listeners[w] - 1)
      && r.client.listeners[w] <= c.listeners[w]
      && (forall x :: x != w ==> r.client.listeners[x] == c.listeners[x])
      && (forall j :: 0 <= j < |c.chans| && j != i ==> r.client.chans[j] == c.chans[j])
  {
    if i >= |c.chans| then Outcome(c, [])
    else if key == CMD_CONNECTION then Outcome(c, [TypeError("connectionFunc is undefined")])
    else
      var res := Off(c.chans[i], c.listeners, map[], key, f);
      Outcome(c.(chans := c.chans[i := res.channel], listeners := res.listeners), [])
  }

  /** `conn.emit(key, data)` on a client channel (index.js:206-208): sent
      under the wire name that splits back into `key` and the channel's number. */
  function OnChannelEmit(c: Client, i: nat, key: string, data: string): (r: Outcome)
    ensures r.client == c
    ensures i >= |c.chans| ==> r.effects == []
    ensures i < |c.chans| ==>
      && |r.effects| == 1 && r.effects[0].Send? && r.effects[0].payload == Data(data)
      && ParseWireName(r.effects[0].event) == Some((key, c.chans[i].number))
  {
    if i < |c.chans| then
      WireNameRoundTrip(key, c.chans[i].number);
      Outcome(c, [Send(WireName(key, c.chans[i].number), Data(data))])
    else
      Outcome(c, [])
  }

  /** `'disconnect'` on the socket (index.js:110-118): a new 30-second grace
      timer is armed and recorded; an earlier one is not cancelled. */
  function OnLinkClosed(c: Client, reason: string): (r: Outcome)
    ensures r.effects == [TimerArmed(c.nextTimer, GRACE_DELAY_MS)]
    ensures c.nextTimer in r.client.timers && r.client.disconnectTimer == Some(c.nextTimer)
    ensures r.client.timers == c.timers + {c.nextTimer} && r.client.nextTimer == c.nextTimer + 1
    ensures r.client == c.(timers := c.timers + {c.nextTimer}, disconnectTimer := Some(c.nextTimer),
                           nextTimer := c.nextTimer + 1)
    ensures Valid(c) ==> Valid(r.client)
  {
    var t := c.nextTimer;
    Outcome(c.(timers := c.timers + {t}, disconnectTimer := Some(t), nextTimer := t + 1), [TimerArmed(t, GRACE_DELAY_MS)])
  }

  /** `'reconnect'` on the socket (index.js:119-124): the recorded grace
      timer is cancelled and the session id is presented as a challenge. */
  function OnReconnected(c: Client): (r: Outcome)
    ensures r.effects == [Send(CMD_CHALLENGE, SessionToken(c.id))]
    ensures c.disconnectTimer.Some? ==> c.disconnectTimer.value !in r.client.timers
    ensures forall t :: t in c.timers && Some(t) != c.disconnectTimer ==> t in r.client.timers
    ensures r.client.timers <= c.timers
    ensures r.client == c.(timers := r.client.timers)
    ensures Valid(c) ==> Valid(r.client)
  {
    var timers := if c.disconnectTimer.Some? then c.timers - {c.disconnectTimer.value} else c.timers;
    Outcome(c.(timers := timers), [Send(CMD_CHALLENGE, SessionToken(c.id))])
  }

  /** A client grace timer expires (index.js:112-117): only the current
      channel, the one made last, is told, through its `'disconnect'`
      handler if it has one; with no channel made yet the callback throws.
      A cancelled timer does nothing. */
  function OnTimerFired(c: Client, t: TimerId): (r: Outcome)
    ensures t !in c.timers ==> r == Outcome(c, [])
    ensures t in c.timers ==> r.client == c.(timers := c.timers - {t})
    ensures t in c.timers && c.chans == [] ==> |r.effects| == 1 && r.effects[0].TypeError?
    ensures t in c.timers && c.chans != [] ==>
      var current := c.chans[|c.chans| - 1];
      && |r.effects| <= 1
      && (|r.effects| == 1 <==> CMD_DISCONNECT in current.events)
      && (|r.effects| == 1 ==> r.effects[0] == HandlerCalled(current.events[CMD_DISCONNECT]))
  {
    if t !in c.timers then Outcome(c, [])
    else
      var c' := c.(timers := c.timers - {t});
      if c.chans == [] then Outcome(c', [TypeError("self.connection is undefined")])
      else
        var events := c.chans[|c.chans| - 1].events;
        if CMD_DISCONNECT in events then Outcome(c', [HandlerCalled(events[CMD_DISCONNECT])])
        else Outcome(c', [])
  }

  /** Reconnecting within the grace period means the grace timer never fires. */
  lemma ReconnectDisarmsTimer(c: Client, reason: string)
    ensures
      var closed := OnLinkClosed(c, reason).client;
      var back := OnReconnected(closed).client;
      OnTimerFired(back, c.nextTimer) == Outcome(back, [])
  {
  }

  /** Every client transition keeps the session id fixed (index.js:109, 123)
      and keeps `Valid`. */
  lemma EventsKeepSession(c: Client, name: string, i: nat, key: string, f: Handler, data: string,
                          reason: string, t: TimerId)
    requires Valid(c)
    ensures var r := Io(c, name).client; r.id == c.id && Valid(r)
    ensures var r := OnChannelOn(c, i, key, f).client; r.id == c.id && Valid(r)
    ensures var r := OnChannelOff(c, i, key, f).client; r.id == c.id && Valid(r)
    ensures var r := OnChannelEmit(c, i, key, data).client; r.id == c.id && Valid(r)
    ensures var r := OnLinkClosed(c, reason).client; r.id == c.id && Valid(r)
    ensures var r := OnReconnected(c).client; r.id == c.id && Valid(r)
    ensures var r := OnTimerFired(c, t).client; r.id == c.id && Valid(r)
  {
  }
}

=== FILE: lines.dfy ===
/**
 The server-side session (`Line`, index.js:137-191): the channels opened
 under one client session, its authentication flag, and the physical link
 it is currently bound to.

 JavaScript shares objects by reference; here every channel object lives in
 a `Heap` under a `ChanRef`, a line's channel table maps channel numbers to
 those references, and each channel object keeps a reference to its parent
 line. The heap also holds what all lines share: the factory table and the
 listener registrations of every link.
 */
module Lines {
  import opened Wrappers
  import opened Wire
  import opened Channels
  import opened PropertyOrder

  type LineRef = nat
  type ChanRef = nat
  type TimerId = nat

  datatype Line = Line(
    link: LinkId,                     // `this.ws`, by its id
    hasAuthFunc: bool,                // whether `authFunc` was configured
    authenticated: bool,
    connections: map<nat, ChanRef>,   // channel number -> channel object
    disconnectTimer: Option<TimerId>) // the last timer armed for this line

  /** A channel object on the server with its `parent` line. */
  datatype Conn = Conn(parent: LineRef, channel: Channel)

  datatype Heap = Heap(
    factories: map<string, Handler>,  // the shared `connectionFunc` table
    conns: map<ChanRef, Conn>,        // every channel object created so far
    nextChan: ChanRef,                // the reference the next channel object gets
    listeners: map<LinkId, Listeners>)

  /** The result the external `authFunc` hands to its continuation. */
  datatype AuthReply = AuthReply(err: bool, result: string)

  /** What `Line.connect` leaves behind; `factoryFound` is false when
      `connectionFunc[name]` was undefined and the call threw. */
  datatype Opened = Opened(line: Line, heap: Heap, channel: ChanRef, factoryFound: bool, effects: seq<Effect>)

  datatype Closed = Closed(line: Line, heap: Heap, effects: seq<Effect>)

  function LinkListeners(h: Heap, link: LinkId): Listeners {
    if link in h.listeners then h.listeners[link] else multiset{}
  }

  /** The line holds a live channel object under `number`. */
  predicate Holds(line: Line, conns: map<ChanRef, Conn>, number: nat) {
    number in line.connections && line.connections[number] in conns
  }

  /** The channel the line holds under `number`. */
  function ChannelOf(line: Line, conns: map<ChanRef, Conn>, number: nat): Channel
    requires Holds(line, conns, number)
  {
    conns[line.connections[number]].channel
  }

  /** Every `(wire name, handler)` pair recorded by the line's channels:
      what `reconnect` registers and `disconnect` unregisters. */
  function Recorded(line: Line, conns: map<ChanRef, Conn>): set<Listener> {
    set n: nat, k: EventKey | n in line.connections && line.connections[n] in conns && k in ChannelOf(line, conns, n).events
      :: Listener(WireName(k, ChannelOf(line, conns, n).number), ChannelOf(line, conns, n).events[k])
  }

  /** `new Line(...)` (index.js:138-144): authenticated from the start
      exactly when no authentication function is configured. */
  function NewLine(link: LinkId, hasAuthFunc: bool): (l: Line)
    ensures l.authenticated <==> !hasAuthFunc
    ensures l.link == link && l.hasAuthFunc == hasAuthFunc
    ensures l.connections == map[] && l.disconnectTimer == None
  {
    Line(link, hasAuthFunc, !hasAuthFunc, map[], None)
  }

  /** `Line.auth` (index.js:146-156) with the authentication function's
      reply given. Without an authentication function nothing happens;
      otherwise the result goes back on the line's link whether or not it
      reports an error, and only a reply without error authenticates. */
  function Auth(line: Line, reply: AuthReply): (r: (Line, seq<Effect>))
    ensures !line.hasAuthFunc ==> r == (line, [])
    ensures line.hasAuthFunc ==> r.1 == [Emit(line.link, CMD_AUTH, Data(reply.result))]
    ensures r.0.authenticated <==> line.authenticated || (line.hasAuthFunc && !reply.err)
    ensures r.0 == line.(authenticated := r.0.authenticated)
  {
    if line.hasAuthFunc then
      (line.(authenticated := line.authenticated || !reply.err), [Emit(line.link, CMD_AUTH, Data(reply.result))])
    else
      (line, [])
  }

  /** `Line.connect` (index.js:158-163): a new channel object with no
      handlers takes the slot for `number`, replacing whatever was there,
      and the factory registered for `name` is called once with it. When no
      factory is registered the call throws after the slot was filled.
      The factory table is a plain map: no name finds an inherited function. */
  function Connect(line: Line, self: LineRef, heap: Heap, name: string, number: nat): (r: Opened)
    ensures r.channel == heap.nextChan && r.heap.nextChan == heap.nextChan + 1
    ensures r.line == line.(connections := r.line.connections)
    ensures r.line.connections.Keys == line.connections.Keys + {number}
    ensures r.line.connections[number] == r.channel
    ensures forall n :: n in line.connections && n != number ==> r.line.connections[n] == line.connections[n]
    ensures r.heap.conns.Keys == heap.conns.Keys + {r.channel}
    ensures r.heap.conns[r.channel] == Conn(self, NewChannel(name, number))
    ensures forall c :: c in heap.conns && c != r.channel ==> r.heap.conns[c] == heap.conns[c]
    ensures r.heap.factories == heap.factories && r.heap.listeners == heap.listeners
    ensures r.factoryFound <==> name in heap.factories
    ensures r.factoryFound ==> r.effects == [FactoryCalled(heap.factories[name], r.channel)]
    ensures !r.factoryFound ==> |r.effects| == 1 && r.effects[0].TypeError?
  {
    var c := heap.nextChan;
    var heap' := heap.(conns := heap.conns[c := Conn(self, NewChannel(name, number))], nextChan := c + 1);
    var line' := line.(connections := line.connections[number := c]);
    if name in heap.factories then
      Opened(line', heap', c, true, [FactoryCalled(heap.factories[name], c)])
    else
      Opened(line', heap', c, false, [TypeError("connectionFunc[name] is not a function")])
  }

  /** `Line.reconnect` (index.js:165-177): the line moves to `link` and
      every handler recorded by every one of its channels is registered on
      that link again under the same wire name. Re-recording a handler under
      its own key leaves every channel's table as it was. */
  function Reconnect(line: Line, heap: Heap, link: LinkId): (r: (Line, Heap))
    ensures r.0 == line.(link := link)
    ensures r.1.conns == heap.conns && r.1.factories == heap.factories && r.1.nextChan == heap.nextChan
    ensures forall l :: l in Recorded(line, heap.conns) ==> LinkListeners(r.1, link)[l] == LinkListeners(heap, link)[l] + 1
    ensures forall l :: l !in Recorded(line, heap.conns) ==> LinkListeners(r.1, link)[l] == LinkListeners(heap, link)[l]
    ensures forall other :: other != link ==> LinkListeners(r.1, other) == LinkListeners(heap, other)
  {
    var rec := Recorded(line, heap.conns);
    (line.(link := link),
     heap.(listeners := heap.listeners[link := LinkListeners(heap, link) + multiset(rec)]))
  }

  predicate HasDisconnectHandler(line: Line, conns: map<ChanRef, Conn>, number: nat) {
    Holds(line, conns, number) && CMD_DISCONNECT in ChannelOf(line, conns, number).events
  }

  function DisconnectHandler(line: Line, conns: map<ChanRef, Conn>, number: nat): Handler
    requires HasDisconnectHandler(line, conns, number)
  {
    ChannelOf(line, conns, number).events[CMD_DISCONNECT]
  }

  /** The channel numbers among `ks` whose channel has a `'disconnect'`
      handler, in the order of `ks`. */
  function Firing(ks: seq<nat>, line: Line, conns: map<ChanRef, Conn>): (r: seq<nat>)
    requires StrictlyIncreasing(ks)
    ensures StrictlyIncreasing(r)
    ensures forall n :: n in r <==> n in ks && HasDisconnectHandler(line, conns, n)
  {
    if ks == [] then []
    else
      var rest := Firing(ks[1..], line, conns);
      HeadBelowTail(ks);
      if HasDisconnectHandler(line, conns, ks[0]) then
        PrependIncreasing(ks[0], rest);
        [ks[0]] + rest
      else rest
  }

  /** The order in which `Line.disconnect` calls `'disconnect'` handlers:
      ascending channel number, only channels that have one. */
  function FiringOrder(line: Line, conns: map<ChanRef, Conn>): (r: seq<nat>)
    ensures StrictlyIncreasing(r)
    ensures forall n :: n in r <==> HasDisconnectHandler(line, conns, n)
    ensures |r| <= |line.connections|
  {
    var r := Firing(SortedKeys(line.connections.Keys), line, conns);
    IncreasingWithinBound(r, line.connections.Keys);
    r
  }

  /** The channel objects after every channel of `line` has had all its handlers removed. */
  function Cleared(line: Line, conns: map<ChanRef, Conn>): (r: map<ChanRef, Conn>)
    ensures r.Keys == conns.Keys
    ensures forall c :: c in conns ==>
      r[c].parent == conns[c].parent && r[c].channel.name == conns[c].channel.name && r[c].channel.number == conns[c].channel.number
    ensures forall n :: Holds(line, conns, n) ==>
      var c := line.connections[n];
      r[c].parent == conns[c].parent && r[c].channel == conns[c].channel.(events := map[])
    ensures forall c :: c in conns && c !in line.connections.Values ==> r[c] == conns[c]
  {
    map c | c in conns :: if c in line.connections.Values then conns[c].(channel := conns[c].channel.(events := map[])) else conns[c]
  }

  /** A link's listeners after one `removeListener` for each pair in `pairs`. */
  function RemoveEach(ls: Listeners, pairs: set<Listener>): (r: Listeners)
    ensures forall l :: l in pairs && ls[l] > 0 ==> r[l] == ls[l] - 1
    ensures forall l :: l in pairs ==> r[l] <= ls[l]
    ensures forall l :: l !in pairs ==> r[l] == ls[l]
  {
    ls - multiset(pairs)
  }

  /** The calls of the `'disconnect'` handlers, one per entry of `order`. */
  function Calls(line: Line, conns: map<ChanRef, Conn>, order: seq<nat>): (r: seq<Effect>)
    requires forall n :: n in order ==> HasDisconnectHandler(line, conns, n)
    ensures |r| == |order|
    ensures forall i :: 0 <= i < |r| ==> r[i] == HandlerCalled(DisconnectHandler(line, conns, order[i]))
  {
    seq(|order|, i requires 0 <= i < |order| => HandlerCalled(DisconnectHandler(line, conns, order[i])))
  }

  /** `Line.disconnect` (index.js:179-191): each channel's `'disconnect'`
      handler, where there is one, is called once, in ascending channel
      order; each recorded handler is removed once from the line's current
      link; every channel's table is emptied and so is the line's channel
      table. The registry's indexes are not touched here. */
  function Disconnect(line: Line, heap: Heap): (r: Closed)
    ensures r.line == line.(connections := map[])
    ensures |r.effects| == |FiringOrder(line, heap.conns)| <= |line.connections|
    ensures forall i :: 0 <= i < |r.effects| ==>
      r.effects[i] == HandlerCalled(DisconnectHandler(line, heap.conns, FiringOrder(line, heap.conns)[i]))
    ensures r.heap.factories == heap.factories && r.heap.nextChan == heap.nextChan
    ensures r.heap.conns == Cleared(line, heap.conns)
    ensures LinkListeners(r.heap, line.link) == RemoveEach(LinkListeners(heap, line.link), Recorded(line, heap.conns))
    ensures forall other :: other != line.link ==> LinkListeners(r.heap, other) == LinkListeners(heap, other)
  {
    var order := FiringOrder(line, heap.conns);
    var remaining := RemoveEach(LinkListeners(heap, line.link), Recorded(line, heap.conns));
    Closed(line.(connections := map[]),
           heap.(conns := Cleared(line, heap.conns), listeners := heap.listeners[line.link := remaining]),
           Calls(line, heap.conns, order))
  }
}

=== FILE: order.dfy ===
/**
 The order in which `Object.keys` lists the integer-like property names of
 an object: ascending numeric order. The model iterates a line's channel
 table (keyed by channel number) in this order.
 */
module PropertyOrder {

  ghost predicate StrictlyIncreasing(s: seq<nat>) {
    forall i, j :: 0 <= i < j < |s| ==> s[i] < s[j]
  }

  /** Every element of a set of naturals has a least element of the set at
      or below it: descend while something smaller exists. */
  lemma {:induction false} LeastAtOrBelow(s: set<nat>, y: nat)
    requires y in s
    ensures exists m :: m in s && m <= y && forall x :: x in s ==> m <= x
    decreases y
  {
    if !(forall x :: x in s ==> y <= x) {
      var x :| x in s && x < y;
      LeastAtOrBelow(s, x);
    }
  }

  /** The least element of a non-empty set of naturals. */
  function Min(s: set<nat>): (m: nat)
    requires s != {}
    ensures m in s && forall x :: x in s ==> m <= x
  {
    var y :| y in s;
    LeastAtOrBelow(s, y);
    var m :| m in s && forall x :: x in s ==> m <= x;
    m
  }

  /** The keys of `s` listed once each, in ascending order. */
  function SortedKeys(s: set<nat>): (r: seq<nat>)
    ensures StrictlyIncreasing(r)
    ensures forall n :: n in r <==> n in s
    ensures |r| == |s|
    decreases |s|
  {
    if s == {} then []
    else
      var m := Min(s);
      [m] + SortedKeys(s - {m})
  }

  /** A strictly increasing listing of elements of `s` mentions each at most
      once, so it is no longer than `s`. */
  lemma {:induction false} IncreasingWithinBound(r: seq<nat>, s: set<nat>)
    requires StrictlyIncreasing(r)
    requires forall n :: n in r ==> n in s
    ensures |r| <= |s|
    decreases |r|
  {
    if r != [] {
      var rest := r[1..];
      forall n | n in rest ensures n in s - {r[0]} {
        var j :| 0 <= j < |rest| && rest[j] == n;
        assert r[j + 1] == n;
      }
      IncreasingWithinBound(rest, s - {r[0]});
    }
  }

  /** In a strictly increasing sequence the head is below everything after it. */
  lemma HeadBelowTail(ks: seq<nat>)
    requires StrictlyIncreasing(ks) && ks != []
    ensures forall n :: n in ks[1..] ==> ks[0] < n
  {
    forall n | n in ks[1..] ensures ks[0] < n {
      var j :| 0 <= j < |ks[1..]| && ks[1..][j] == n;
      assert ks[j + 1] == n;
    }
  }

  /** Putting a smaller element in front keeps a sequence strictly increasing. */
  lemma PrependIncreasing(x: nat, rest: seq<nat>)
    requires StrictlyIncreasing(rest)
    requires forall n :: n in rest ==> x < n
    ensures StrictlyIncreasing([x] + rest)
  {
    var s := [x] + rest;
    forall i, j | 0 <= i < j < |s| ensures s[i] < s[j] {
      assert s[j] == rest[j - 1] && s[j] in rest;
    }
  }
}

=== FILE: registry.dfy ===
/**
 The server side of `MultiSocket` (index.js:42-104, 210-226): the registry
 of lines indexed by physical link (`ws`) and by client session id (`cn`),
 the shared factory table, and the handlers the server installs on every
 link. Each incoming message, each timer expiry and each call user code
 makes on a channel object is one `Event`; `Step` is the transition.
 */
module Registry {
  import opened Wrappers
  import opened Wire
  import opened Channels
  import opened Lines

  /** The id a client generates once and presents on every channel open and reconnect. */
  type SessionId = string

  datatype Server = Server(
    hasAuthFunc: bool,              // `authFunc` was passed to the constructor
    heap: Heap,
    lines: map<LineRef, Line>,      // every line object created so far
    nextLine: LineRef,
    ws: map<LinkId, LineRef>,       // physical link -> line
    cn: map<SessionId, LineRef>,    // client session -> line
    timers: map<TimerId, LineRef>,  // pending grace timers, with the line each will close
    nextTimer: TimerId)

  datatype Event =
    | LinkOpened(link: LinkId)                                // namespace `'connection'`
    | ChallengeReceived(link: LinkId, id: SessionId)          // `'challenge reconnect'`
    | AuthReceived(link: LinkId, token: string, reply: AuthReply)
    | OpenReceived(link: LinkId, request: OpenRequest)        // `'connection'` on a link
    | LinkClosed(link: LinkId, reason: string)                // `'disconnect'` on a link
    | TimerFired(timer: TimerId)                              // a grace timer expires
    | FactoryOn(name: string, key: string, f: Handler)        // `multi.io(name).on(key, f)`
    | FactoryOff(name: string, key: string, f: Handler)       // `multi.io(name).off(key, f)`
    | ChannelOn(channel: ChanRef, key: string, f: Handler)    // `conn.on(key, f)`
    | ChannelOff(channel: ChanRef, key: string, f: Handler)   // `conn.off(key, f)`
    | ChannelEmit(channel: ChanRef, key: string, data: string) // `conn.emit(key, data)`

  datatype Outcome = Outcome(server: Server, effects: seq<Effect>)

  /** The server as the constructor leaves it (index.js:45-48): every table
      empty, every counter at zero. */
  function Init(hasAuthFunc: bool): (s: Server)
    ensures s.hasAuthFunc == hasAuthFunc
    ensures s.heap.factories == map[] && s.heap.conns == map[] && s.heap.listeners == map[]
    ensures s.lines == map[] && s.ws == map[] && s.cn == map[] && s.timers == map[]
    ensures s.heap.nextChan == 0 && s.nextLine == 0 && s.nextTimer == 0
  {
    Server(hasAuthFunc, Heap(map[], map[], 0, map[]), map[], 0, map[], map[], map[], 0)
  }

  /** The facts every reachable server state keeps: the indexes and timers
      point at existing lines, a link indexes the line bound to it, every
      channel a line holds is a live object whose parent is that line and
      whose number is the slot it sits in, a line without an authentication
      function is authenticated, and references are fresh below
      the allocation counters. */
  ghost predicate Valid(s: Server) {
    && (forall x :: x in s.ws ==> s.ws[x] in s.lines && s.lines[s.ws[x]].link == x)
    && (forall id :: id in s.cn ==> s.cn[id] in s.lines)
    && (forall t :: t in s.timers ==> s.timers[t] in s.lines && t < s.nextTimer)
    && (forall l :: l in s.lines ==>
          && l < s.nextLine && s.lines[l].hasAuthFunc == s.hasAuthFunc
          && (s.lines[l].authenticated || s.lines[l].hasAuthFunc))
    && (forall c :: c in s.heap.conns ==> c < s.heap.nextChan && s.heap.conns[c].parent in s.lines)
    && (forall l, n :: l in s.lines && n in s.lines[l].connections ==>
          && s.lines[l].connections[n] in s.heap.conns
          && s.heap.conns[s.lines[l].connections[n]].parent == l
          && s.heap.conns[s.lines[l].connections[n]].channel.number == n)
  }

  /** The line bound to `link`, if any. */
  predicate Bound(s: Server, link: LinkId) {
    link in s.ws && s.ws[link] in s.lines
  }

  /** A new link gets a new line, authenticated exactly when no
      authentication function is configured (index.js:50-53). */
  function OnLinkOpened(s: Server, link: LinkId): (r: Outcome)
    ensures r.effects == []
    ensures Bound(r.server, link) && r.server.ws[link] == s.nextLine
    ensures r.server.lines[s.nextLine].authenticated <==> !s.hasAuthFunc
    ensures r.server.lines[s.nextLine].link == link && r.server.lines[s.nextLine].connections == map[]
    ensures r.server.lines.Keys == s.lines.Keys + {s.nextLine} && r.server.nextLine == s.nextLine + 1
    ensures forall l :: l in s.lines && l != s.nextLine ==> r.server.lines[l] == s.lines[l]
    ensures forall x :: x != link ==> (x in r.server.ws <==> x in s.ws) && (x in s.ws ==> r.server.ws[x] == s.ws[x])
    ensures r.server.cn == s.cn && r.server.heap == s.heap && r.server.timers == s.timers
    ensures r.server == s.(lines := s.lines[s.nextLine := NewLine(link, s.hasAuthFunc)],
                           nextLine := s.nextLine + 1, ws := s.ws[link := s.nextLine])
  {
    var l := s.nextLine;
    Outcome(s.(lines := s.lines[l := NewLine(link, s.hasAuthFunc)], nextLine := l + 1, ws := s.ws[link := l]), [])
  }

  /** The challenge moves a line only when the session is known and its line
      is bound to a different link (index.js:56-58). */
  predicate Rebinds(s: Server, link: LinkId, id: SessionId) {
    id in s.cn && s.cn[id] in s.lines && s.lines[s.cn[id]].link != link
  }

  /** The link index after a move (index.js:68-69): the new link now names
      the line and the stale link names nothing. */
  function Relink(ws: map<LinkId, LineRef>, link: LinkId, l: LineRef, stale: LinkId): (r: map<LinkId, LineRef>)
    requires stale != link
    ensures r.Keys == ws.Keys + {link} - {stale}
    ensures r[link] == l
    ensures forall x :: x in ws && x != link && x != stale ==> r[x] == ws[x]
  {
    ws[link := l] - {stale}
  }

  /** `clearTimeout(line.disconnectTimer)` (index.js:65): the timer, if
      still pending, never fires; every other pending timer is kept. */
  function Cancel(timers: map<TimerId, LineRef>, t: Option<TimerId>): (r: map<TimerId, LineRef>)
    ensures t.Some? ==> t.value !in r
    ensures forall u :: u in timers && Some(u) != t ==> u in r && r[u] == timers[u]
    ensures r.Keys <= timers.Keys
  {
    if t.Some? then timers - {t.value} else timers
  }

  /** Moves line `l` to `link` (index.js:59-70): its pending grace timer is
      cancelled, the new link indexes it and its old link no longer does,
      and every handler its channels recorded is registered once more on
      the new link. */
  function Rebind(s: Server, l: LineRef, link: LinkId): (r: Server)
    requires l in s.lines && s.lines[l].link != link
    ensures var line := s.lines[l];
      && r.ws == Relink(s.ws, link, l, line.link)
      && r.lines == s.lines[l := line.(link := link)]
      && r.cn == s.cn && r.hasAuthFunc == s.hasAuthFunc && r.nextLine == s.nextLine && r.nextTimer == s.nextTimer
      && r.timers == Cancel(s.timers, line.disconnectTimer)
      && r.heap.conns == s.heap.conns && r.heap.factories == s.heap.factories && r.heap.nextChan == s.heap.nextChan
      && (forall x :: x in Recorded(line, s.heap.conns) ==>
            LinkListeners(r.heap, link)[x] == LinkListeners(s.heap, link)[x] + 1)
      && (forall x :: x !in Recorded(line, s.heap.conns) ==>
            LinkListeners(r.heap, link)[x] == LinkListeners(s.heap, link)[x])
      && (forall other :: other != link ==> LinkListeners(r.heap, other) == LinkListeners(s.heap, other))
  {
    var line := s.lines[l];
    var moved := Reconnect(line, s.heap, link);
    s.(ws := Relink(s.ws, link, l, line.link), timers := Cancel(s.timers, line.disconnectTimer),
       lines := s.lines[l := moved.0], heap := moved.1)
  }

  /** `'challenge reconnect'` (index.js:55-72): the line is moved only when
      `Rebinds`; otherwise nothing changes, and in no case is anything sent
      back (the source has no failure reply). */
  function OnChallenge(s: Server, link: LinkId, id: SessionId): (r: Outcome)
    ensures r.effects == []
    ensures !Rebinds(s, link, id) ==> r.server == s
    ensures Rebinds(s, link, id) ==> r.server == Rebind(s, s.cn[id], link)
  {
    if Rebinds(s, link, id) then Outcome(Rebind(s, s.cn[id], link), []) else Outcome(s, [])
  }

  /** `'authentication'` (index.js:75-78): the token goes to the line bound to
      the link; on a link no line is bound to, the handler throws. */
  function OnAuth(s: Server, link: LinkId, token: string, reply: AuthReply): (r: Outcome)
    ensures !Bound(s, link) ==> r == Outcome(s, [TypeError("line is undefined")])
    ensures Bound(s, link) ==>
      var l := s.ws[link];
      var line := s.lines[l];
      && r.server.lines.Keys == s.lines.Keys
      && r.server == s.(lines := s.lines[l := r.server.lines[l]])
      && (r.server.lines[l].authenticated <==> line.authenticated || (line.hasAuthFunc && !reply.err))
      && r.server.lines[l] == line.(authenticated := r.server.lines[l].authenticated)
      && r.effects == (if line.hasAuthFunc then [Emit(line.link, CMD_AUTH, Data(reply.result))] else [])
  {
    if Bound(s, link) then
      var l := s.ws[link];
      var res := Auth(s.lines[l], reply);
      Outcome(s.(lines := s.lines[l := res.0]), res.1)
    else
      Outcome(s, [TypeError("line is undefined")])
  }

  /** The line `link` is bound to exists and is authenticated. */
  predicate Admits(s: Server, link: LinkId) {
    Bound(s, link) && s.lines[s.ws[link]].authenticated
  }

  /** Channel-open on a link (index.js:81-90). Before authentication the
      message is dropped without a trace. After it, the line gets a fresh
      channel under the requested number (replacing any earlier one), the
      session id indexes the line, and the factory for the name is called
      once with the new channel; without a factory the call throws before
      the session id is indexed. */
  function OnOpen(s: Server, link: LinkId, req: OpenRequest): (r: Outcome)
    ensures !Bound(s, link) ==> r == Outcome(s, [TypeError("line is undefined")])
    ensures Bound(s, link) && !Admits(s, link) ==> r == Outcome(s, [])
    ensures Admits(s, link) ==>
      var l := s.ws[link];
      var c := s.heap.nextChan;
      && r.server.lines.Keys == s.lines.Keys
      && (forall l' :: l' in s.lines && l' != l ==> r.server.lines[l'] == s.lines[l'])
      && r.server.lines[l] == s.lines[l].(connections := s.lines[l].connections[req.number := c])
      && r.server.heap.conns == s.heap.conns[c := Conn(l, NewChannel(req.name, req.number))]
      && r.server.heap.nextChan == c + 1
      && r.server.heap.factories == s.heap.factories && r.server.heap.listeners == s.heap.listeners
      && r.server.ws == s.ws && r.server.timers == s.timers
      && r.server.hasAuthFunc == s.hasAuthFunc && r.server.nextLine == s.nextLine && r.server.nextTimer == s.nextTimer
      && (req.name in s.heap.factories ==>
            && r.server.cn == s.cn[req.id := l]
            && r.effects == [FactoryCalled(s.heap.factories[req.name], c)])
      && (req.name !in s.heap.factories ==>
            && r.server.cn == s.cn
            && |r.effects| == 1 && r.effects[0].TypeError?)
  {
    if !Bound(s, link) then
      Outcome(s, [TypeError("line is undefined")])
    else if !s.lines[s.ws[link]].authenticated then
      Outcome(s, [])
    else
      var l := s.ws[link];
      var made := Connect(s.lines[l], l, s.heap, req.name, req.number);
      var cn := if made.factoryFound then s.cn[req.id := l] else s.cn;
      Outcome(s.(lines := s.lines[l := made.line], heap := made.heap, cn := cn), made.effects)
  }

  /** `'disconnect'` on a link (index.js:93-102): the line bound to it arms a
      new 30-second grace timer, which becomes the line's recorded timer; an
      earlier timer is not cancelled. A link with no line does nothing. */
  function OnLinkClosed(s: Server, link: LinkId, reason: string): (r: Outcome)
    ensures !Bound(s, link) ==> r == Outcome(s, [])
    ensures Bound(s, link) ==>
      var l := s.ws[link];
      var t := s.nextTimer;
      && r.effects == [TimerArmed(t, GRACE_DELAY_MS)]
      && r.server.timers == s.timers[t := l] && r.server.nextTimer == t + 1
      && r.server.lines == s.lines[l := s.lines[l].(disconnectTimer := Some(t))]
      && r.server.ws == s.ws && r.server.cn == s.cn && r.server.heap == s.heap
      && r.server.hasAuthFunc == s.hasAuthFunc && r.server.nextLine == s.nextLine
  {
    if Bound(s, link) then
      var l := s.ws[link];
      var t := s.nextTimer;
      Outcome(s.(timers := s.timers[t := l], nextTimer := t + 1,
                 lines := s.lines[l := s.lines[l].(disconnectTimer := Some(t))]), [TimerArmed(t, GRACE_DELAY_MS)])
    else
      Outcome(s, [])
  }

  /** A grace timer that was not cancelled expires (index.js:97-100): its
      line is torn down by `Line.disconnect`. The line stays in both
      indexes. A cancelled or unknown timer does nothing. */
  function OnTimerFired(s: Server, t: TimerId): (r: Outcome)
    ensures !(t in s.timers && s.timers[t] in s.lines) ==> r == Outcome(s, [])
    ensures t in s.timers && s.timers[t] in s.lines ==>
      var l := s.timers[t];
      var closed := Disconnect(s.lines[l], s.heap);
      && r.server.timers == s.timers - {t}
      && r.server.ws == s.ws && r.server.cn == s.cn
      && r.server.lines == s.lines[l := s.lines[l].(connections := map[])]
      && r.server.heap == closed.heap
      && r.server.hasAuthFunc == s.hasAuthFunc && r.server.nextLine == s.nextLine && r.server.nextTimer == s.nextTimer
      && r.effects == closed.effects
  {
    if t in s.timers && s.timers[t] in s.lines then
      var l := s.timers[t];
      var closed := Disconnect(s.lines[l], s.heap);
      Outcome(s.(timers := s.timers - {t}, lines := s.lines[l := closed.line], heap := closed.heap), closed.effects)
    else
      Outcome(s, [])
  }

  /** `multi.io(name).on(key, f)` on the server (index.js:210-217, 228-231):
      the channel's parent is the `MultiSocket`, so `'connection'` sets the
      factory for `name`, and any other key reaches the registry map's
      missing `on` method and throws. */
  function OnFactoryOn(s: Server, name: string, key: string, f: Handler): (r: Outcome)
    ensures key == CMD_CONNECTION ==> r == Outcome(s.(heap := s.heap.(factories := s.heap.factories[name := f])), [])
    ensures key != CMD_CONNECTION ==> r.server == s && |r.effects| == 1 && r.effects[0].TypeError?
  {
    if key == CMD_CONNECTION then
      Outcome(s.(heap := s.heap.(factories := s.heap.factories[name := f])), [])
    else
      Outcome(s, [TypeError("ws.on is not a function")])
  }

  /** `multi.io(name).off(key, f)` on the server (index.js:219-226): removes
      the factory for `name`; any other key throws. */
  function OnFactoryOff(s: Server, name: string, key: string, f: Handler): (r: Outcome)
    ensures key == CMD_CONNECTION ==> r == Outcome(s.(heap := s.heap.(factories := s.heap.factories - {name})), [])
    ensures key != CMD_CONNECTION ==> r.server == s && |r.effects| == 1 && r.effects[0].TypeError?
  {
    if key == CMD_CONNECTION then
      Outcome(s.(heap := s.heap.(factories := s.heap.factories - {name})), [])
    else
      Outcome(s, [TypeError("ws.removeListener is not a function")])
  }

  /** A channel object whose parent line exists. */
  predicate Live(s: Server, c: ChanRef) {
    c in s.heap.conns && s.heap.conns[c].parent in s.lines
  }

  /** The link a channel object talks on: its parent line's current link. */
  function LinkOf(s: Server, c: ChanRef): LinkId
    requires Live(s, c)
  {
    s.lines[s.heap.conns[c].parent].link
  }

  /** Applies a channel registration result to the server. */
  function Apply(s: Server, c: ChanRef, res: Registration): Server
    requires Live(s, c)
  {
    var link := LinkOf(s, c);
    s.(heap := s.heap.(conns := s.heap.conns[c := s.heap.conns[c].(channel := res.channel)],
                       listeners := s.heap.listeners[link := res.listeners],
                       factories := res.factories))
  }

  /** `conn.on(key, f)` by user code (index.js:210-217), on the parent
      line's current link. Afterwards a message for `key` on that link
      reaches `f`. */
  function OnChannelOn(s: Server, c: ChanRef, key: string, f: Handler): (r: Outcome)
    ensures r.effects == []
    ensures !Live(s, c) ==> r.server == s
    ensures Live(s, c) ==>
      var ch := s.heap.conns[c].channel;
      var link := LinkOf(s, c);
      var res := On(ch, LinkListeners(s.heap, link), s.heap.factories, key, f);
      && r.server.lines == s.lines && r.server.ws == s.ws && r.server.cn == s.cn && r.server.timers == s.timers
      && r.server.hasAuthFunc == s.hasAuthFunc && r.server.nextLine == s.nextLine && r.server.nextTimer == s.nextTimer
      && r.server.heap.nextChan == s.heap.nextChan
      && r.server.heap.conns == s.heap.conns[c := s.heap.conns[c].(channel := res.channel)]
      && LinkListeners(r.server.heap, link) == res.listeners
      && (forall other :: other != link ==> LinkListeners(r.server.heap, other) == LinkListeners(s.heap, other))
      && r.server.heap.factories == res.factories
      && (key != CMD_CONNECTION ==>
            && r.server.heap.factories == s.heap.factories
            && key in r.server.heap.conns[c].channel.events
            && r.server.heap.conns[c].channel.events[key] == f
            && f in Receivers(LinkListeners(r.server.heap, link), WireName(key, ch.number)))
      && (key == CMD_CONNECTION ==>
            && r.server.heap.conns == s.heap.conns
            && LinkListeners(r.server.heap, link) == LinkListeners(s.heap, link)
            && r.server.heap.factories == s.heap.factories[ch.name := f])
  {
    if Live(s, c) then
      var link := LinkOf(s, c);
      var ch := s.heap.conns[c].channel;
      var res := On(ch, LinkListeners(s.heap, link), s.heap.factories, key, f);
      OnDelivers(ch, LinkListeners(s.heap, link), s.heap.factories, key, f);
      Outcome(Apply(s, c, res), [])
    else
      Outcome(s, [])
  }

  /** `conn.off(key, f)` by user code (index.js:219-226): the key leaves the
      channel's table and one instance of the matching listener, if there is
      one, leaves the parent line's current link. */
  function OnChannelOff(s: Server, c: ChanRef, key: string, f: Handler): (r: Outcome)
    ensures r.effects == []
    ensures !Live(s, c) ==> r.server == s
    ensures Live(s, c) ==>
      var ch := s.heap.conns[c].channel;
      var link := LinkOf(s, c);
      var res := Off(ch, LinkListeners(s.heap, link), s.heap.factories, key, f);
      var w := Listener(WireName(key, ch.number), f);
      && r.server.lines == s.lines && r.server.ws == s.ws && r.server.cn == s.cn && r.server.timers == s.timers
      && r.server.hasAuthFunc == s.hasAuthFunc && r.server.nextLine == s.nextLine && r.server.nextTimer == s.nextTimer
      && r.server.heap.nextChan == s.heap.nextChan
      && r.server.heap.conns == s.heap.conns[c := s.heap.conns[c].(channel := res.channel)]
      && LinkListeners(r.server.heap, link) == res.listeners
      && (forall other :: other != link ==> LinkListeners(r.server.heap, other) == LinkListeners(s.heap, other))
      && r.server.heap.factories == res.factories
      && (key != CMD_CONNECTION ==>
            && r.server.heap.factories == s.heap.factories
            && key !in r.server.heap.conns[c].channel.events
            && (forall k :: k in r.server.heap.conns[c].channel.events ==> r.server.heap.conns[c].channel.events[k] == ch.events[k])
            && (forall x :: x != w ==> LinkListeners(r.server.heap, link)[x] == LinkListeners(s.heap, link)[x])
            && (LinkListeners(s.heap, link)[w] > 0 ==>
                  LinkListeners(r.server.heap, link)[w] == LinkListeners(s.heap, link)[w] - 1)
            && LinkListeners(r.server.heap, link)[w] <= LinkListeners(s.heap, link)[w])
      && (key == CMD_CONNECTION ==>
            && r.server.heap.conns == s.heap.conns
            && LinkListeners(r.server.heap, link) == LinkListeners(s.heap, link)
            && r.server.heap.factories == s.heap.factories - {ch.name})
  {
    if Live(s, c) then
      var link := LinkOf(s, c);
      var res := Off(s.heap.conns[c].channel, LinkListeners(s.heap, link), s.heap.factories, key, f);
      Outcome(Apply(s, c, res), [])
    else
      Outcome(s, [])
  }

  /** `conn.emit(key, data)` (index.js:206-208): sent on the parent line's
      current link under the channel's wire name for `key`. */
  function OnChannelEmit(s: Server, c: ChanRef, key: string, data: string): (r: Outcome)
    ensures r.server == s
    ensures !Live(s, c) ==> r.effects == []
    ensures Live(s, c) ==>
      && |r.effects| == 1 && r.effects[0].Emit? && r.effects[0].link == LinkOf(s, c)
      && r.effects[0].payload == Data(data)
      && ParseWireName(r.effects[0].event) == Some((key, s.heap.conns[c].channel.number))
  {
    if Live(s, c) then
      WireNameRoundTrip(key, s.heap.conns[c].channel.number);
      Outcome(s, [Emit(LinkOf(s, c), WireName(key, s.heap.conns[c].channel.number), Data(data))])
    else
      Outcome(s, [])
  }

  /** One transition of the server. */
  function Step(s: Server, e: Event): Outcome {
    match e
    case LinkOpened(link) => OnLinkOpened(s, link)
    case ChallengeReceived(link, id) => OnChallenge(s, link, id)
    case AuthReceived(link, token, reply) => OnAuth(s, link, token, reply)
    case OpenReceived(link, req) => OnOpen(s, link, req)
    case LinkClosed(link, reason) => OnLinkClosed(s, link, reason)
    case TimerFired(t) => OnTimerFired(s, t)
    case FactoryOn(name, key, f) => OnFactoryOn(s, name, key, f)
    case FactoryOff(name, key, f) => OnFactoryOff(s, name, key, f)
    case ChannelOn(c, key, f) => OnChannelOn(s, c, key, f)
    case ChannelOff(c, key, f) => OnChannelOff(s, c, key, f)
    case ChannelEmit(c, key, data) => OnChannelEmit(s, c, key, data)
  }
}

=== FILE: registry_props.dfy ===
/**
 Properties of the server registry that relate several transitions or hold
 across every reachable state.
 */
module RegistryProperties {
  import opened Wire
  import opened Channels
  import opened Lines
  import opened Registry

  lemma InitValid(hasAuthFunc: bool)
    ensures Valid(Init(hasAuthFunc))
  {
  }

  lemma LinkOpenedKeepsValid(s: Server, link: LinkId)
    requires Valid(s)
    ensures Valid(OnLinkOpened(s, link).server)
  {
  }

  lemma ChallengeKeepsValid(s: Server, link: LinkId, id: SessionId)
    requires Valid(s)
    ensures Valid(OnChallenge(s, link, id).server)
  {
  }

  lemma AuthKeepsValid(s: Server, link: LinkId, token: string, reply: AuthReply)
    requires Valid(s)
    ensures Valid(OnAuth(s, link, token, reply).server)
  {
  }

  lemma OpenKeepsValid(s: Server, link: LinkId, req: OpenRequest)
    requires Valid(s)
    ensures Valid(OnOpen(s, link, req).server)
  {
    if Admits(s, link) {
      var r := OnOpen(s, link, req).server;
      var l := s.ws[link];
      var c := s.heap.nextChan;
      assert c !in s.heap.conns;
      forall l', n | l' in r.lines && n in r.lines[l'].connections
        ensures r.lines[l'].connections[n] in r.heap.conns
        ensures r.heap.conns[r.lines[l'].connections[n]].parent == l'
        ensures r.heap.conns[r.lines[l'].connections[n]].channel.number == n
      {
        if l' == l && n == req.number {
          assert r.lines[l'].connections[n] == c;
        } else {
          assert r.lines[l'].connections[n] == s.lines[l'].connections[n];
          assert s.lines[l'].connections[n] != c;
        }
      }
    }
  }

  lemma LinkClosedKeepsValid(s: Server, link: LinkId, reason: string)
    requires Valid(s)
    ensures Valid(OnLinkClosed(s, link, reason).server)
  {
  }

  lemma TimerFiredKeepsValid(s: Server, t: TimerId)
    requires Valid(s)
    ensures Valid(OnTimerFired(s, t).server)
  {
  }

  lemma ChannelOnKeepsValid(s: Server, c: ChanRef, key: string, f: Handler)
    requires Valid(s)
    ensures Valid(OnChannelOn(s, c, key, f).server)
  {
  }

  lemma ChannelOffKeepsValid(s: Server, c: ChanRef, key: string, f: Handler)
    requires Valid(s)
    ensures Valid(OnChannelOff(s, c, key, f).server)
  {
  }

  /** Every transition keeps the registry's invariant. */
  lemma StepKeepsValid(s: Server, e: Event)
    requires Valid(s)
    ensures Valid(Step(s, e).server)
  {
    match e
    case LinkOpened(link) => LinkOpenedKeepsValid(s, link);
    case ChallengeReceived(link, id) => ChallengeKeepsValid(s, link, id);
    case AuthReceived(link, token, reply) => AuthKeepsValid(s, link, token, reply);
    case OpenReceived(link, req) => OpenKeepsValid(s, link, req);
    case LinkClosed(link, reason) => LinkClosedKeepsValid(s, link, reason);
    case TimerFired(t) => TimerFiredKeepsValid(s, t);
    case FactoryOn(name, key, f) =>
    case FactoryOff(name, key, f) =>
    case ChannelOn(c, key, f) => ChannelOnKeepsValid(s, c, key, f);
    case ChannelOff(c, key, f) => ChannelOffKeepsValid(s, c, key, f);
    case ChannelEmit(c, key, data) =>
  }

  /** Within one line, two different (key, channel) pairs never share a wire
      name, so no handler of one channel hears another channel's messages. */
  lemma WireNamesDistinctWithinLine(s: Server, l: LineRef, n1: nat, k1: string, n2: nat, k2: string)
    requires Valid(s) && l in s.lines
    requires n1 in s.lines[l].connections && n2 in s.lines[l].connections
    requires n1 != n2 || k1 != k2
    ensures WireName(k1, ChannelOf(s.lines[l], s.heap.conns, n1).number)
         != WireName(k2, ChannelOf(s.lines[l], s.heap.conns, n2).number)
  {
    WireNameInjective(k1, ChannelOf(s.lines[l], s.heap.conns, n1).number,
                      k2, ChannelOf(s.lines[l], s.heap.conns, n2).number);
  }

  /** Reconnection re-arms every handler: after the challenge moves the
      line, each handler a channel recorded under `k` is registered once more
      on the new link under that channel's wire name for `k`, and the
      channel's own table is what it was. */
  lemma RebindRestoresDelivery(s: Server, link: LinkId, id: SessionId, n: nat, k: EventKey)
    requires Valid(s) && Rebinds(s, link, id)
    requires Holds(s.lines[s.cn[id]], s.heap.conns, n)
    requires k in ChannelOf(s.lines[s.cn[id]], s.heap.conns, n).events
    ensures
      var l := s.cn[id];
      var h := ChannelOf(s.lines[l], s.heap.conns, n).events[k];
      var after := OnChallenge(s, link, id).server;
      && after.ws[link] == l && after.lines[l].link == link
      && Holds(after.lines[l], after.heap.conns, n)
      && ChannelOf(after.lines[l], after.heap.conns, n) == ChannelOf(s.lines[l], s.heap.conns, n)
      && h in Receivers(LinkListeners(after.heap, link), WireName(k, n))
      && LinkListeners(after.heap, link)[Listener(WireName(k, n), h)]
         == LinkListeners(s.heap, link)[Listener(WireName(k, n), h)] + 1
  {
    var l := s.cn[id];
    var line := s.lines[l];
    var h := ChannelOf(line, s.heap.conns, n).events[k];
    var after := OnChallenge(s, link, id).server;
    var x := Listener(WireName(k, n), h);
    assert x in Recorded(line, s.heap.conns);
    assert x in LinkListeners(after.heap, link);
  }

  /** A second challenge for the same session on the same link changes
      nothing: the line is already bound there. */
  lemma ChallengeIdempotent(s: Server, link: LinkId, id: SessionId)
    ensures
      var once := OnChallenge(s, link, id).server;
      OnChallenge(once, link, id) == Outcome(once, [])
  {
    var once := OnChallenge(s, link, id).server;
    if Rebinds(s, link, id) {
      assert once.lines[s.cn[id]].link == link;
    }
    assert !Rebinds(once, link, id);
  }

  /** The grace timer a rebind cancels never tears the line down. */
  lemma CancelledTimerIsInert(s: Server, link: LinkId, id: SessionId)
    requires Rebinds(s, link, id) && s.lines[s.cn[id]].disconnectTimer.Some?
    ensures
      var after := OnChallenge(s, link, id).server;
      OnTimerFired(after, s.lines[s.cn[id]].disconnectTimer.value) == Outcome(after, [])
  {
  }

  /** A channel-open sent before authentication is dropped; once the
      authentication function accepts, the same open calls the factory
      exactly once, with the new channel. */
  lemma AuthGatesOpen(s: Server, link: LinkId, req: OpenRequest, token: string, reply: AuthReply)
    requires Valid(s) && Bound(s, link) && !s.lines[s.ws[link]].authenticated
    requires req.name in s.heap.factories && !reply.err
    ensures OnOpen(s, link, req) == Outcome(s, [])
    ensures
      var authed := OnAuth(s, link, token, reply);
      && authed.effects == [Emit(link, CMD_AUTH, Data(reply.result))]
      && OnOpen(authed.server, link, req).effects == [FactoryCalled(s.heap.factories[req.name], s.heap.nextChan)]
  {
    var authed := OnAuth(s, link, token, reply);
    assert Admits(authed.server, link);
  }

  /** Teardown leaves both indexes in place, so a later challenge from a new
      link still moves the emptied line there; with no channels left, nothing
      is registered on the new link. */
  lemma TornDownLineStillRebinds(s: Server, t: TimerId, link: LinkId, id: SessionId)
    requires Valid(s) && t in s.timers && id in s.cn && s.cn[id] == s.timers[t]
    requires s.lines[s.cn[id]].link != link
    ensures
      var down := OnTimerFired(s, t).server;
      var back := OnChallenge(down, link, id).server;
      && down.ws == s.ws && down.cn == s.cn
      && Rebinds(down, link, id)
      && back.ws[link] == s.cn[id] && back.lines[s.cn[id]].connections == map[]
      && LinkListeners(back.heap, link) == LinkListeners(down.heap, link)
  {
    var down := OnTimerFired(s, t).server;
    var l := s.cn[id];
    assert down.lines[l].connections == map[];
    assert Recorded(down.lines[l], down.heap.conns) == {};
    var back := OnChallenge(down, link, id).server;
    assert LinkListeners(back.heap, link) == LinkListeners(down.heap, link);
  }

  /** A client with session `"ab12cd34"` opens channel `"chat"` as number 0
      on a server without an authentication function: the `"chat"` factory
      is called at once with the new channel, and a handler that channel
      registers for `"message"` hears the wire name `"message_0"`. */
  lemma ChatScenario()
    ensures
      var s0 := OnFactoryOn(Init(false), "chat", CMD_CONNECTION, 1).server;
      var s1 := OnLinkOpened(s0, "L").server;
      var r := OnOpen(s1, "L", OpenRequest("chat", 0, "ab12cd34"));
      && r.effects == [FactoryCalled(1, 0)]
      && "ab12cd34" in r.server.cn
      && 2 in Receivers(LinkListeners(OnChannelOn(r.server, 0, "message", 2).server.heap, "L"), "message_0")
  {
    var s0 := OnFactoryOn(Init(false), "chat", CMD_CONNECTION, 1).server;
    var s1 := OnLinkOpened(s0, "L").server;
    var r := OnOpen(s1, "L", OpenRequest("chat", 0, "ab12cd34"));
    assert Admits(s1, "L");
    assert Decimal(0) == "0";
    assert WireName("message", 0) == "message_0";
  }
}

=== FILE: session_props.dfy ===
/**
 Properties that join the two ends: what the client sends is what the
 server consumes, and the numbering scheme makes both ends agree on the
 wire names of a channel.
 */
module SessionProperties {
  import opened Wire
  import opened Channels
  import opened Lines
  import R = Registry
  import C = Client

  /** The open message a client sends gives, on a server line that admits
      it, a channel with the same number and name; once that channel
      registers a handler for `key`, whatever the client emits on its
      channel under `key` arrives at that handler. */
  lemma OpenPairsChannels(c: C.Client, name: string, s: R.Server, link: LinkId, key: EventKey, f: Handler, data: string)
    requires R.Valid(s) && R.Admits(s, link) && name in s.heap.factories
    ensures
      var made := C.Io(c, name);
      var req := made.effects[0].payload.request;
      var admitted := R.OnOpen(s, link, req);
      var ref := s.heap.nextChan;
      var sent := C.OnChannelEmit(made.client, made.channel, key, data).effects[0];
      var armed := R.OnChannelOn(admitted.server, ref, key, f).server;
      && admitted.effects == [FactoryCalled(s.heap.factories[name], ref)]
      && admitted.server.heap.conns[ref].channel == NewChannel(name, c.number)
      && f in Receivers(LinkListeners(armed.heap, link), sent.event)
  {
    var made := C.Io(c, name);
    var req := made.effects[0].payload.request;
    var admitted := R.OnOpen(s, link, req);
    var ref := s.heap.nextChan;
    assert R.Live(admitted.server, ref);
    assert R.LinkOf(admitted.server, ref) == link;
    var sent := C.OnChannelEmit(made.client, made.channel, key, data).effects[0];
    assert sent.event == WireName(key, c.number);
  }
}

=== FILE: wire.dfy ===
/**
 Wire-level names of the multiplexing protocol.

 Every logical event of a channel travels on the one physical link under the
 name `key + "_" + number`, where `number` is the channel number rendered the
 way JavaScript renders a natural number (plain decimal, no leading zeros).
 This module defines that rendering, its inverse, and proves that the wire
 name determines the pair (key, number), so channels never collide.
 */
module Wire {
  import opened Wrappers

  /** Un-suffixed command names used on the link (index.js:34-37). */
  const CMD_AUTH: string := "authentication"
  const CMD_CONNECTION: string := "connection"
  const CMD_DISCONNECT: string := "disconnect"
  const CMD_RECONNECT: string := "reconnect"

  /** The reconnect challenge is sent as `'challenge ' + CMD_RECONNECT`. */
  const CMD_CHALLENGE: string := "challenge " + CMD_RECONNECT

  /** Grace period before an unreconnected line is torn down, in seconds. */
  const DISCONNECT_TIMEOUT: nat := 30

  /** The delay both grace timers are armed with, in milliseconds. */
  const GRACE_DELAY_MS: nat := DISCONNECT_TIMEOUT * 1000

  /** The separator `Array.prototype.join` is given in `eventName`. */
  const SEPARATOR: char := '_'

  predicate IsDigit(c: char) {
    '0' <= c <= '9'
  }

  predicate AllDigits(s: string) {
    forall i :: 0 <= i < |s| ==> IsDigit(s[i])
  }

  /** The strings JavaScript's `String(n)` produces for a natural `n`
      below 10^21: at least one digit and no leading zero. */
  predicate Canonical(s: string) {
    && |s| >= 1
    && AllDigits(s)
    && (s[0] == '0' ==> |s| == 1)
  }

  function Digit(d: nat): (c: char)
    requires d < 10
    ensures IsDigit(c)
    ensures c == '0' <==> d == 0
  {
    ('0' as int + d) as char
  }

  function DigitValue(c: char): (d: nat)
    requires IsDigit(c)
    ensures d < 10 && Digit(d) == c
  {
    c as int - '0' as int
  }

  /** Decimal rendering of a natural number. */
  function Decimal(n: nat): (s: string)
    ensures Canonical(s)
    ensures s[0] == '0' <==> n == 0
    ensures SEPARATOR !in s
    decreases n
  {
    if n < 10 then [Digit(n)] else Decimal(n / 10) + [Digit(n % 10)]
  }

  /** Reads a string of digits as a natural number. */
  function ParseDecimal(s: string): nat
    requires AllDigits(s)
  {
    if s == [] then 0 else ParseDecimal(s[..|s| - 1]) * 10 + DigitValue(s[|s| - 1])
  }

  /** Reading back a rendered number gives the number. */
  lemma {:induction false} ParseDecimalOfDecimal(n: nat)
    ensures ParseDecimal(Decimal(n)) == n
    decreases n
  {
    var s := Decimal(n);
    if n >= 10 {
      ParseDecimalOfDecimal(n / 10);
      assert s[..|s| - 1] == Decimal(n / 10);
    }
  }

  /** A canonical digit string starting with a non-zero digit denotes a positive number. */
  lemma {:induction false} ParseDecimalPositive(s: string)
    requires |s| >= 1 && AllDigits(s) && s[0] != '0'
    ensures ParseDecimal(s) >= 1
    decreases |s|
  {
    if |s| > 1 {
      ParseDecimalPositive(s[..|s| - 1]);
    }
  }

  /** Rendering a parsed canonical string gives the string back. */
  lemma {:induction false} DecimalOfParseDecimal(s: string)
    requires Canonical(s)
    ensures Decimal(ParseDecimal(s)) == s
    decreases |s|
  {
    if |s| > 1 {
      var p := s[..|s| - 1];
      assert Canonical(p);
      DecimalOfParseDecimal(p);
      ParseDecimalPositive(p);
      var n := ParseDecimal(s);
      assert n / 10 == ParseDecimal(p) && n % 10 == DigitValue(s[|s| - 1]);
      assert s == p + [s[|s| - 1]];
    }
  }

  /** `Connection.eventName`: the wire name of logical event `key` on channel `number`. */
  function WireName(key: string, number: nat): (w: string)
    ensures |w| > |key| && w[..|key|] == key && w[|key|] == SEPARATOR
  {
    key + [SEPARATOR] + Decimal(number)
  }

  /** The position of the last occurrence of `c` in `s`, if any. */
  function LastIndexOf(s: string, c: char): (r: Option<nat>)
    ensures r.None? <==> c !in s
    ensures r.Some? ==> r.value < |s| && s[r.value] == c && c !in s[r.value + 1..]
  {
    if s == [] then None
    else if s[|s| - 1] == c then Some(|s| - 1)
    else
      var r := LastIndexOf(s[..|s| - 1], c);
      assert s == s[..|s| - 1] + [s[|s| - 1]];
      r
  }

  /** Splits a wire name at its last separator into (key, number); `None`
      when the text after the last separator is not a canonical number. */
  function ParseWireName(w: string): Option<(string, nat)> {
    match LastIndexOf(w, SEPARATOR)
    case None => None
    case Some(i) =>
      var suffix := w[i + 1..];
      if Canonical(suffix) then Some((w[..i], ParseDecimal(suffix))) else None
  }

  /** Every wire name can be split back into the key and number it was built from. */
  lemma WireNameRoundTrip(key: string, number: nat)
    ensures ParseWireName(WireName(key, number)) == Some((key, number))
  {
    var w := WireName(key, number);
    var d := Decimal(number);
    assert w[|key| + 1..] == d;
    assert LastIndexOf(w, SEPARATOR) == Some(|key|);
    ParseDecimalOfDecimal(number);
  }

  /** The only strings that split into (key, number) are the wire names of that pair. */
  lemma ParseWireNameSound(w: string, key: string, number: nat)
    requires ParseWireName(w) == Some((key, number))
    ensures WireName(key, number) == w
  {
    var i := LastIndexOf(w, SEPARATOR).value;
    var suffix := w[i + 1..];
    DecimalOfParseDecimal(suffix);
    assert w == w[..i] + [SEPARATOR] + suffix;
  }

  /** Wire names are unambiguous: equal names come from equal (key, number) pairs. */
  lemma WireNameInjective(k1: string, n1: nat, k2: string, n2: nat)
    ensures WireName(k1, n1) == WireName(k2, n2) <==> k1 == k2 && n1 == n2
  {
    WireNameRoundTrip(k1, n1);
    WireNameRoundTrip(k2, n2);
  }
}

=== FILE: wrappers.dfy ===
/** The optional-value datatype used throughout the model. */
module Wrappers {

  /** `None` stands for JavaScript's `undefined` where the source reads a
      missing property; `Some(v)` for a present one. */
  datatype Option<+T> = None | Some(value: T)
}
